=== FILE: README.md ===
# carproto token lifecycle, modelled in Dafny

carproto polls a vehicle's fuel and odometer through the Smartcar API on a
fixed daily schedule and publishes each reading pair as a
`net.mmatt.personal.vitals.car` record to an AT Protocol repository. Its only
stateful logic is the OAuth token lifecycle in `index.ts`: a one-record token
file, two in-memory token slots, and `ensureValidToken`, which reloads the
slots from the file, throws when nothing is held, and refreshes the access
token through the provider when only a refresh token is held.

The model is functional. The token file is a value
(`Absent | Corrupt | Present(record)`). A failed file write is a `writeOk`
flag that leaves the store unchanged. Each provider call is an oracle
argument: the refresh and code exchanges, and the two vehicle reads. Modules:

- `JsValues`: nullable values, `Result`, and JavaScript truthiness (`!x`, `x || 0`, `startsWith`).
- `TokenStore`: `initTokenStorage`, `saveTokens`, `loadTokens`, `clearTokens`.
- `TokenManager`: the token slots, `ensureValidToken`, and completion of the authorization-code exchange.
- `CarRecord`: the publish gate and record assembly of `makeApiRequest`.
- `ApiRequest`: one scheduled tick (`makeApiRequest`) and a run of ticks.
- `Cli`: `split("=")`, `args.find`, the command-line dispatch, and what process start does in each branch.

Behaviours of the code worth noting:

- The code has no reactive refresh. A rejected access token only produces log output (index.ts:210). Once both slots are filled, no tick ever calls the refresh exchange again (`ApiRequest.CachedTokenNeverRefreshed`). So with `(a1, r1)` stored and the provider rejecting `a1`, a tick publishes nothing and does not refresh (`ApiRequest.ExpiredAccessTokenScenario`).
- A stored record holding only a refresh token is not used. `loadTokens` refuses a record unless both fields are truthy (index.ts:71), so with empty slots the call throws "no tokens" instead of refreshing from that token (`TokenManager.Unauthenticated`).
- `clearTokens` writes `{}` only when the file exists. A missing file stays missing.
- Write failures are swallowed, not reported. `--clear-tokens` therefore always exits with status 0.
- `saveTokens` stores whatever the exchange returned, empty strings included. A record with an empty token is one that `loadTokens` refuses.
- The record's `$type` is `net.mmatt.personal.vitals.car`. The generated lexicon's id is `net.mmatt.vitals.car`, and it declares the four numeric fields as integers. Schema validation is not part of this model.

## Model

| member | source | states |
|---|---|---|
| TokenStore.InitTokenStorage | index.ts:36-45 | an existing file, readable or not, is never altered; a missing file receives the `{}` sentinel when the write succeeds; a failed write changes nothing; what `loadTokens` yields is unchanged |
| TokenStore.SaveTokens | index.ts:48-60 | a successful save leaves a record holding exactly the two given tokens; a failed save leaves the store as it was |
| TokenStore.LoadTokens | index.ts:62-83 | a pair is yielded iff the file exists, parses, and both token fields are truthy; a yielded pair is non-empty and equal to the stored fields |
| TokenStore.ClearTokens | index.ts:85-94 | a missing file stays missing; after a successful clear no pair loads and an existing file holds `{}`; a failed clear changes nothing |
| TokenStore.InitIdempotent | index.ts:36-41 | after a successful initialisation, a second one changes nothing |
| TokenStore.SaveLoadRoundTrip | index.ts:48-78 | loading after a successful save yields exactly the saved pair when both tokens are non-empty, and nothing otherwise |
| TokenStore.ClearThenLoad | index.ts:85-89 | after a successful clear no pair loads (never a pair of empty strings) and the store is missing or `{}` |
| TokenStore.ClearIdempotent | index.ts:85-89 | clearing after a successful clear changes nothing |
| TokenManager.EnsureValidToken | index.ts:104-130 | both slots truthy: returns the cached access token, reads nothing, calls nothing; the store is read iff a slot is falsy; throws "no tokens" iff neither slot is truthy and the store yields no pair (a stored refresh token without an access token counts as none), then calls no exchange; the exchange is called iff the access slot is falsy, the store yields no pair and a refresh token is held, and it gets that token; a granted exchange replaces both slots, persists the same pair and returns the new access token; a rejected one changes neither slots nor store; a reload fills both slots from the stored pair and returns its access token; a held access token is returned unchanged when the store yields no pair, even with an empty refresh slot; the returned token is always the one in the access slot |
| TokenManager.CompleteAuthorization | index.ts:317-335 | a granted code exchange fills both slots and, when the save succeeds, persists the pair so that it loads back; a failed save leaves the store as it was; a rejected exchange changes nothing |
| TokenManager.RefreshRotation | index.ts:104-129 | from refresh token `r1` alone, a granted `(a2, r2)` is returned and stored; the next call returns `a2` without reading the store or calling the provider |
| TokenManager.RefreshTokenNeverLost | index.ts:114-122 | while a refresh token is held and the provider never issues an empty one, a call never fails with "no tokens" and still holds a refresh token afterwards |
| TokenManager.Unauthenticated | index.ts:106-117 | with empty slots and a store that yields no pair (missing, unreadable, `{}`, or a record lacking either token), the call throws "no tokens", changes nothing and calls no exchange |
| TokenManager.FreshNeverRefreshes | index.ts:104-126 | from freshly started slots the refresh exchange is never called, whatever the store holds |
| CarRecord.BuildRecord | index.ts:186-205 | a record exists iff both the fuel and odometer readings were obtained; each field is its reading (fuel fraction times 100), or 0 when the reading lacks it; the type tag is fixed |
| CarRecord.ScenarioRecord | index.ts:186-194 | fuel (250, 0.62, 9.3) and odometer 12345 give the record (250, 62, 9.3, 12345) |
| ApiRequest.ApiRequest | index.ts:133-217 | missing credentials are reported iff the client id or secret is falsy, and a missing vehicle iff they are present but the vehicle id is falsy; both abort before any token work; otherwise slots and store are those `ensureValidToken` leaves, and a token failure is reported with exactly the error `ensureValidToken` threw; a record is submitted iff configured, a token was obtained and both reads with that token succeeded, and it is the record built from those readings |
| ApiRequest.RunTicks | index.ts:222-246 | a run yields one status per tick and at most one exchange call per tick |
| ApiRequest.RunOneTick | index.ts:224-245 | a run of one tick has exactly the slots, store, status and exchange call of that `makeApiRequest` tick |
| ApiRequest.RunTicksAppend | index.ts:222-246 | a run over two consecutive stretches of ticks is the first run followed by the second, started from the slots and store the first left; statuses and exchange calls concatenate |
| ApiRequest.CachedTokenNeverRefreshed | index.ts:206-216 | once both slots are truthy, no sequence of ticks changes the slots or the store or calls the refresh exchange, whatever the provider answers |
| ApiRequest.ExpiredAccessTokenScenario | index.ts:150-205 | with `(a1, r1)` stored and every read with `a1` rejected, a tick loads `a1`, publishes nothing and does not refresh |
| JsValues.OrZero | index.ts:190-193 | a number defaulted to 0 with JavaScript's or-operator is the reading when present (a falsy 0 falls back to the same 0) and 0 when missing |
| JsValues.StartsWith | index.ts:296 | `startsWith` holds iff the prefix is no longer than the string and agrees with it at every position |
| Cli.Split | index.ts:310 | `split` on one character yields at least one piece, no piece contains the separator, and joining the pieces with it gives back the input |
| Cli.SplitJoin | index.ts:310 | splitting a join of separator-free pieces gives back those pieces |
| Cli.AuthCodeOf | index.ts:310 | the code contains no `=`, the argument is `--auth-code=` followed by the code, and the code ends at the end of the argument or at a `=`: it is the text between the first and second `=` |
| Cli.FindPrefixed | index.ts:296 | the index of the first argument with the prefix, or the length when there is none |
| Cli.Dispatch | index.ts:295-313 | `--clear-tokens` is chosen iff it appears, whatever `--auth-code=` arguments there are; the default branch is taken iff neither flag appears; otherwise the first `--auth-code=` argument decides; an empty code is rejected, and an exchanged code is non-empty and has no `=` |
| Cli.Launch | index.ts:295-354 | clearing exits 0, exchanges nothing and leaves no loadable pair when the write worked; an empty code exits 1 before any exchange; a code is exchanged iff one is given; a granted code fills the slots, persists and starts the scheduler, and a rejected one exits 1; with no flag a stored pair fills the slots and starts the scheduler, otherwise the OAuth setup is shown; clearing rewrites the initialised file as `{}` (a missing one stays missing); a granted code is written over the initialised file whatever its tokens; the exit-1 branches and failed writes leave the initialised store untouched |

## Left out

- File-system calls and JSON (de)serialisation. The file is an abstract value. Non-string JSON values in the token fields and torn writes are not modelled.
- The `updated_at` and `createdAt` timestamps, which are clock readings.
- The Smartcar SDK and the AT Protocol session. `exchangeCode`, `exchangeRefreshToken` and the vehicle reads are oracle arguments. The repository login at startup and the `createRecord` call are not modelled: `createRecord`'s outcome only affects logging. Submission is the last step modelled.
- Floating point. Readings are exact reals, so the rounding of `percentRemaining * 100` and NaN readings are not modelled. `Math.floor` only appears in log output.
- CarRecord.BuildRecord: treats only a missing number as falsy, besides 0 itself, because NaN is not modelled.
- The cron schedule, the time zone, the SIGINT handler and `process.exit`. A run of ticks is a sequence with no timing. The overlap of ticks and the race on refresh-token rotation are not modelled.
- The initial `makeApiRequest()` at index.ts:376. In the auth-code branch it runs concurrently with the code exchange. A tick is modelled only on its own (`ApiRequest.ApiRequest`).
- Console output, including the "401" substring check and the printing of the authorization URL in `setupOAuth`. `setupOAuth` is represented only as the `SetupOAuth` outcome of `Cli.Launch`.
- The generated lexicon files (`lexiconTypes/lexicons.ts`, `lexiconTypes/index.ts`, `lexiconTypes/types/net/mmatt/vitals/car.ts`) and the ambient `smartcar.d.ts` declarations. They hold no hand-written logic.

=== FILE: api_request.dfy ===
/** One scheduled tick (`makeApiRequest`) and a run of ticks. Every error of a
    tick is caught and logged, so a tick only changes the token slots and the
    store (through `ensureValidToken`) and possibly submits one record. */
module ApiRequest {
  import opened JsValues
  import opened TokenStore
  import opened TokenManager
  import opened CarRecord

  /** The environment variables a tick checks before any network call. */
  datatype Config = Config(clientId: Option<string>, clientSecret: Option<string>, vehicleId: Option<string>)

  /** The outside world for one tick: the refresh exchange, whether saving
      succeeds, and the two vehicle reads, each given the vehicle id and the
      access token and answering None when the call throws. */
  datatype Provider = Provider(
    exchange: string -> Exchange,
    saveOk: bool,
    readOdometer: (string, string) -> Option<Odometer>,
    readFuel: (string, string) -> Option<FuelTank>)

  datatype Status =
    | MissingCredentials
    | MissingVehicle
    | AuthFailed(failure: Failure)
    | Skipped                      // a reading was missing: nothing published
    | Submitted(record: CarRecord) // handed to `createRecord`

  datatype Tick = Tick(session: Session, store: Store, status: Status, exchangedWith: Option<string>)

  predicate Configured(c: Config)
  {
    Truthy(c.clientId) && Truthy(c.clientSecret) && Truthy(c.vehicleId)
  }

  /** `makeApiRequest`. */
  function ApiRequest(c: Config, s: Session, store: Store, p: Provider): (t: Tick)
    // Configuration errors abort before the token manager is consulted.
    ensures !Configured(c) ==> t.session == s && t.store == store && t.exchangedWith.None?
                               && (t.status.MissingCredentials? || t.status.MissingVehicle?)
    // Missing credentials are reported first, then a missing vehicle id.
    ensures t.status.MissingCredentials? <==> !Truthy(c.clientId) || !Truthy(c.clientSecret)
    ensures t.status.MissingVehicle? <==> Truthy(c.clientId) && Truthy(c.clientSecret) && !Truthy(c.vehicleId)
    // A token failure is reported with the error `ensureValidToken` threw.
    ensures t.status.AuthFailed? ==> EnsureValidToken(s, store, p.exchange, p.saveOk).result == Err(t.status.failure)
    // Otherwise the slots and the store are exactly what `ensureValidToken` left.
    ensures Configured(c) ==>
              var o := EnsureValidToken(s, store, p.exchange, p.saveOk);
              t.session == o.session && t.store == o.store && t.exchangedWith == o.exchangedWith
              && (o.result.Err? <==> t.status.AuthFailed?)
    // A record is submitted iff the configuration is complete, a token was
    // obtained, and both reads with that token succeeded; it is the record
    // assembled from exactly those readings.
    ensures t.status.Submitted? <==>
              Configured(c)
              && var o := EnsureValidToken(s, store, p.exchange, p.saveOk);
              && o.result.Ok?
              && p.readFuel(c.vehicleId.value, o.result.value).Some?
              && p.readOdometer(c.vehicleId.value, o.result.value).Some?
    ensures t.status.Submitted? ==>
              var tok := EnsureValidToken(s, store, p.exchange, p.saveOk).result.value;
              BuildRecord(p.readFuel(c.vehicleId.value, tok), p.readOdometer(c.vehicleId.value, tok))
              == Some(t.status.record)
  {
    if !Truthy(c.clientId) || !Truthy(c.clientSecret) then
      Tick(s, store, MissingCredentials, None)
    else if !Truthy(c.vehicleId) then
      Tick(s, store, MissingVehicle, None)
    else
      var o := EnsureValidToken(s, store, p.exchange, p.saveOk);
      match o.result
      case Err(f) => Tick(o.session, o.store, AuthFailed(f), o.exchangedWith)
      case Ok(tok) =>
        var vid := c.vehicleId.value;
        match BuildRecord(p.readFuel(vid, tok), p.readOdometer(vid, tok))
        case Some(rec) => Tick(o.session, o.store, Submitted(rec), o.exchangedWith)
        case None => Tick(o.session, o.store, Skipped, o.exchangedWith)
  }

  /** A run of ticks, one per provider in order, threading slots and store. */
  datatype Run = Run(session: Session, store: Store, statuses: seq<Status>, exchanges: seq<string>)

  /** The exchange calls a tick made: its refresh token, if it called one. */
  function Calls(t: Tick): (r: seq<string>)
    ensures |r| <= 1
  {
    if t.exchangedWith.Some? then [t.exchangedWith.value] else []
  }

  /** A tick followed by the run that continues from it. */
  function Then(t: Tick, rest: Run): Run
  {
    Run(rest.session, rest.store, [t.status] + rest.statuses, Calls(t) + rest.exchanges)
  }

  /** A run followed by another: the second's final state, everything else concatenated. */
  function Append(r1: Run, r2: Run): Run
  {
    Run(r2.session, r2.store, r1.statuses + r2.statuses, r1.exchanges + r2.exchanges)
  }

  function RunTicks(c: Config, s: Session, store: Store, ps: seq<Provider>): (r: Run)
    ensures |r.statuses| == |ps|
    ensures |r.exchanges| <= |ps|
    decreases |ps|
  {
    if |ps| == 0 then Run(s, store, [], [])
    else
      var t := ApiRequest(c, s, store, ps[0]);
      Then(t, RunTicks(c, t.session, t.store, ps[1..]))
  }

  /** A run over `ps1 + ps2` is the run over `ps1` followed by the run over
      `ps2` from where the first left off: statuses and exchange calls
      concatenate, and the final slots and store are those of the second run. */
  lemma {:induction false} RunTicksAppend(c: Config, s: Session, store: Store, ps1: seq<Provider>, ps2: seq<Provider>)
    ensures var r1 := RunTicks(c, s, store, ps1);
            RunTicks(c, s, store, ps1 + ps2) == Append(r1, RunTicks(c, r1.session, r1.store, ps2))
    decreases |ps1|
  {
    if |ps1| == 0 {
      assert ps1 + ps2 == ps2;
    } else {
      var t := ApiRequest(c, s, store, ps1[0]);
      assert (ps1 + ps2)[0] == ps1[0];
      assert (ps1 + ps2)[1..] == ps1[1..] + ps2;
      var tail1 := RunTicks(c, t.session, t.store, ps1[1..]);
      var r2 := RunTicks(c, tail1.session, tail1.store, ps2);
      RunTicksAppend(c, t.session, t.store, ps1[1..], ps2);
      ThenAppend(t, tail1, r2);
    }
  }

  /** A run of one tick is that tick: its slots, store, status and exchange
      call are those `makeApiRequest` produces. With `RunTicksAppend` this fixes
      every run as the ticks performed one after another. */
  lemma RunOneTick(c: Config, s: Session, store: Store, p: Provider)
    ensures var t := ApiRequest(c, s, store, p);
            RunTicks(c, s, store, [p]) == Run(t.session, t.store, [t.status], Calls(t))
  {
  }

  /** Prefixing a tick commutes with appending a run. */
  lemma ThenAppend(t: Tick, r1: Run, r2: Run)
    ensures Then(t, Append(r1, r2)) == Append(Then(t, r1), r2)
  {
  }

  /** Once both slots are filled, no later tick ever refreshes: however the
      provider answers (a rejected, expired access token makes every read fail),
      the slots and the store stay as they are and the exchange is never called. */
  lemma {:induction false} CachedTokenNeverRefreshed(c: Config, s: Session, store: Store, ps: seq<Provider>)
    requires Cached(s)
    ensures var r := RunTicks(c, s, store, ps);
            r.session == s && r.store == store && r.exchanges == []
    decreases |ps|
  {
    if |ps| > 0 {
      var t := ApiRequest(c, s, store, ps[0]);
      assert t.session == s && t.store == store && t.exchangedWith.None?;
      CachedTokenNeverRefreshed(c, s, store, ps[1..]);
    }
  }

  /** An expired access token: with `(a1, r1)` stored, empty slots, and the
      provider rejecting `a1` on every read, the tick loads `a1`, publishes
      nothing, and does not refresh. */
  lemma ExpiredAccessTokenScenario(c: Config, store: Store, p: Provider)
    requires Configured(c)
    requires store == Present(TokenRecord(Some("a1"), Some("r1")))
    requires forall v :: p.readOdometer(v, "a1").None? && p.readFuel(v, "a1").None?
    ensures ApiRequest(c, Fresh, store, p) == Tick(Session(Some("a1"), Some("r1")), store, Skipped, None)
  {
  }
}

=== FILE: car_record.dfy ===
/** The vehicle readings `makeApiRequest` fetches and the car-vitals record it
    assembles from them. Numbers are modelled as exact reals. */
module CarRecord {
  import opened JsValues

  /** The fuel-tank reading; a field the provider leaves out is None. */
  datatype FuelTank = FuelTank(range: Option<real>, percentRemaining: Option<real>, amountRemaining: Option<real>)

  datatype Odometer = Odometer(distance: Option<real>)

  /** The `$type` tag written into every record, and the collection it is created in. */
  const RecordType: string := "net.mmatt.personal.vitals.car"

  /** The published record; `createdAt` is a clock reading and is not modelled. */
  datatype CarRecord = CarRecord(
    recordType: string,
    carFuelRange: real,
    carPercentFuelRemaining: real,
    amountRemaining: real,
    carTraveledDistance: real)

  /** The publish gate: a record exists only when both readings were obtained;
      each field carries its reading, with a missing field read as 0, and the
      fuel fraction is scaled to a percentage. */
  function BuildRecord(fuel: Option<FuelTank>, odometer: Option<Odometer>): (r: Option<CarRecord>)
    ensures r.Some? <==> fuel.Some? && odometer.Some?
    ensures r.Some? ==> r.value.recordType == RecordType
    ensures r.Some? ==> FieldFrom(r.value.carFuelRange, fuel.value.range, 1.0)
                        && FieldFrom(r.value.carPercentFuelRemaining, fuel.value.percentRemaining, 100.0)
                        && FieldFrom(r.value.amountRemaining, fuel.value.amountRemaining, 1.0)
                        && FieldFrom(r.value.carTraveledDistance, odometer.value.distance, 1.0)
  {
    match (fuel, odometer)
    case (Some(f), Some(o)) =>
      Some(CarRecord(
        RecordType,
        OrZero(f.range),
        OrZero(f.percentRemaining) * 100.0,
        OrZero(f.amountRemaining),
        OrZero(o.distance)))
    case _ => None
  }

  /** A record field `v` derived from reading `x` with scale `k`: the scaled
      reading when present, 0 when missing. */
  predicate FieldFrom(v: real, x: Option<real>, k: real)
  {
    match x
    case Some(a) => v == a * k
    case None => v == 0.0
  }

  /** Range 250, fraction 0.62, amount 9.3 and distance 12345 give the record
      (250, 62, 9.3, 12345). */
  lemma ScenarioRecord()
    ensures BuildRecord(Some(FuelTank(Some(250.0), Some(0.62), Some(9.3))), Some(Odometer(Some(12345.0))))
            == Some(CarRecord(RecordType, 250.0, 62.0, 9.3, 12345.0))
  {
  }
}

=== FILE: cli.dfy ===
/** Command-line dispatch at process start: `--clear-tokens` revokes the
    stored tokens, `--auth-code=CODE` completes the authorization-code
    exchange, and otherwise stored tokens are loaded (or the OAuth setup is
    shown). Token storage is initialised before any of this. */
module Cli {
  import opened JsValues
  import opened TokenStore
  import opened TokenManager

  const ClearTokensFlag: string := "--clear-tokens"
  const AuthCodePrefix: string := "--auth-code="

  /** Position of the first `c` in `s`, or `|s|` when there is none. */
  function IndexOf(s: string, c: char): (i: nat)
    ensures i <= |s|
    ensures i < |s| ==> s[i] == c
    ensures forall j :: 0 <= j < i ==> s[j] != c
  {
    if |s| == 0 then 0
    else if s[0] == c then 0
    else 1 + IndexOf(s[1..], c)
  }

  /** Glue pieces back together with `sep` between neighbours. */
  function Join(parts: seq<string>, sep: char): string
    requires |parts| >= 1
  {
    if |parts| == 1 then parts[0] else parts[0] + [sep] + Join(parts[1..], sep)
  }

  /** `s.split(sep)` for a one-character separator: the maximal pieces free of
      `sep`, in order; joining them with `sep` gives back `s`. */
  function Split(s: string, sep: char): (parts: seq<string>)
    ensures |parts| >= 1
    ensures forall k :: 0 <= k < |parts| ==> sep !in parts[k]
    ensures Join(parts, sep) == s
    decreases |s|
  {
    var i := IndexOf(s, sep);
    if i == |s| then
      assert s[..i] == s;
      [s]
    else
      var rest := Split(s[i + 1..], sep);
      assert s == s[..i] + [sep] + s[i + 1..];
      assert ([s[..i]] + rest)[1..] == rest;
      [s[..i]] + rest
  }

  /** Splitting undoes joining for pieces free of the separator. */
  lemma {:induction false} SplitJoin(parts: seq<string>, sep: char)
    requires |parts| >= 1
    requires forall k :: 0 <= k < |parts| ==> sep !in parts[k]
    ensures Split(Join(parts, sep), sep) == parts
    decreases |parts|
  {
    var s := Join(parts, sep);
    if |parts| == 1 {
      assert IndexOf(s, sep) == |s|;
    } else {
      var tail := Join(parts[1..], sep);
      assert s == parts[0] + [sep] + tail;
      IndexOfAfterFree(parts[0], tail, sep);
      assert s[..|parts[0]|] == parts[0];
      assert s[|parts[0]| + 1..] == tail;
      SplitJoin(parts[1..], sep);
      assert parts == [parts[0]] + parts[1..];
    }
  }

  /** In `a + [c] + b` with no `c` in `a`, the first `c` sits right after `a`. */
  lemma {:induction false} IndexOfAfterFree(a: string, b: string, c: char)
    requires c !in a
    ensures IndexOf(a + [c] + b, c) == |a|
    decreases |a|
  {
    if |a| > 0 {
      assert (a + [c] + b)[1..] == a[1..] + [c] + b;
      IndexOfAfterFree(a[1..], b, c);
    }
  }

  /** The argument of `--auth-code=`: `arg.split("=")[1]`, the text between
      the first and the second `=` (or the end). */
  function AuthCodeOf(arg: string): (code: string)
    requires StartsWith(arg, AuthCodePrefix)
    ensures '=' !in code
    ensures |AuthCodePrefix| + |code| <= |arg|
    ensures arg[..|AuthCodePrefix| + |code|] == AuthCodePrefix + code
    ensures |AuthCodePrefix| + |code| == |arg| || arg[|AuthCodePrefix| + |code|] == '='
  {
    var name := "--auth-code";
    var rest := arg[|AuthCodePrefix|..];
    assert arg == name + ['='] + rest by {
      assert arg == arg[..|AuthCodePrefix|] + rest;
    }
    IndexOfAfterFree(name, rest, '=');
    SplitAfterFirst(arg, '=');
    SplitFirst(rest, '=');
    Split(arg, '=')[1]
  }

  /** The first piece of a split runs up to the first separator. */
  lemma SplitFirst(s: string, sep: char)
    ensures Split(s, sep)[0] == s[..IndexOf(s, sep)]
  {
  }

  /** Past the first separator, the pieces are those of the remainder. */
  lemma SplitAfterFirst(s: string, sep: char)
    requires IndexOf(s, sep) < |s|
    ensures Split(s, sep)[1..] == Split(s[IndexOf(s, sep) + 1..], sep)
  {
  }

  /** `args.find(a => a.startsWith(p))`, as an index: the first match, or `|args|`. */
  function FindPrefixed(args: seq<string>, p: string): (i: nat)
    ensures i <= |args|
    ensures i < |args| ==> StartsWith(args[i], p)
    ensures forall j :: 0 <= j < i ==> !StartsWith(args[j], p)
  {
    if |args| == 0 then 0
    else if StartsWith(args[0], p) then 0
    else 1 + FindPrefixed(args[1..], p)
  }

  datatype Command =
    | Clear                  // `--clear-tokens`
    | ExchangeAuthCode(code: string)
    | EmptyAuthCode          // "No auth code provided", exit status 1
    | Default                // load stored tokens or show the OAuth setup

  /** The branch the program takes for its arguments (after `process.argv.slice(2)`). */
  function Dispatch(args: seq<string>): (cmd: Command)
    // `--clear-tokens` anywhere wins over any `--auth-code=`.
    ensures cmd == Clear <==> ClearTokensFlag in args
    ensures cmd == Default <==>
              ClearTokensFlag !in args && forall a :: a in args ==> !StartsWith(a, AuthCodePrefix)
    // Otherwise the first `--auth-code=` argument decides, and an empty code
    // is rejected instead of being exchanged.
    ensures cmd.ExchangeAuthCode? || cmd == EmptyAuthCode ==>
              exists i :: 0 <= i < |args| && StartsWith(args[i], AuthCodePrefix)
                          && (forall j :: 0 <= j < i ==> !StartsWith(args[j], AuthCodePrefix))
                          && AuthCodeOf(args[i]) == (if cmd.ExchangeAuthCode? then cmd.code else "")
    ensures cmd.ExchangeAuthCode? ==> cmd.code != "" && '=' !in cmd.code
  {
    if ClearTokensFlag in args then Clear
    else
      var i := FindPrefixed(args, AuthCodePrefix);
      if i == |args| then Default
      else
        var code := AuthCodeOf(args[i]);
        if code == "" then EmptyAuthCode else ExchangeAuthCode(code)
  }

  /** What the process does next. */
  datatype Next = Exit(status: int) | StartScheduler | SetupOAuth

  datatype Launched = Launched(session: Session, store: Store, next: Next, codeExchanged: Option<string>)

  /** Process start: initialise storage, then follow the dispatched branch.
      `initOk`/`writeOk` say whether the file writes succeed and `exchangeCode`
      answers the authorization-code exchange. */
  function Launch(args: seq<string>, store: Store, initOk: bool, writeOk: bool,
                  exchangeCode: string -> Exchange): (l: Launched)
    // Clearing always exits with status 0 (a failed write is swallowed) and
    // never exchanges a code; afterwards no pair can be loaded when the write worked.
    ensures ClearTokensFlag in args ==>
              l.next == Exit(0) && l.codeExchanged.None? && l.session == Fresh
              && (writeOk ==> LoadTokens(l.store).None?)
    // An empty code exits with status 1 before any exchange.
    ensures Dispatch(args) == EmptyAuthCode ==>
              l == Launched(Fresh, InitTokenStorage(store, initOk), Exit(1), None)
    // A code is exchanged exactly when one is given; success fills the slots,
    // persists the pair and starts the scheduler, failure exits with status 1.
    ensures l.codeExchanged.Some? <==> Dispatch(args).ExchangeAuthCode?
    ensures l.codeExchanged.Some? ==>
              l.codeExchanged.value == Dispatch(args).code
              && match exchangeCode(l.codeExchanged.value)
                 case Granted(p) => l.session == Holding(p) && l.next == StartScheduler
                                    && (writeOk && Usable(p) ==> LoadTokens(l.store) == Some(p))
                 case Rejected => l.session == Fresh && l.next == Exit(1)
    // Clearing rewrites the initialised file with `{}` (a missing file stays missing).
    ensures ClearTokensFlag in args ==> l.store == ClearTokens(InitTokenStorage(store, initOk), writeOk)
    // A granted code is written over the initialised file, whatever its tokens.
    ensures l.codeExchanged.Some? && exchangeCode(l.codeExchanged.value).Granted? ==>
              l.store == SaveTokens(InitTokenStorage(store, initOk), exchangeCode(l.codeExchanged.value).pair, writeOk)
    // Exiting with status 1 and failed writes leave the initialised store as it is.
    ensures l.next == Exit(1) ==> l.store == InitTokenStorage(store, initOk)
    ensures !writeOk ==> l.store == InitTokenStorage(store, initOk)
    // With no flag, a stored pair fills the slots and starts the scheduler;
    // anything else leaves the slots empty and shows the OAuth setup.
    ensures Dispatch(args) == Default ==>
              var loaded := LoadTokens(store);
              l.store == InitTokenStorage(store, initOk)
              && (loaded.Some? ==> l.session == Holding(loaded.value) && l.next == StartScheduler)
              && (loaded.None? ==> l.session == Fresh && l.next == SetupOAuth)
  {
    var s0 := InitTokenStorage(store, initOk);
    match Dispatch(args)
    case Clear => Launched(Fresh, ClearTokens(s0, writeOk), Exit(0), None)
    case EmptyAuthCode => Launched(Fresh, s0, Exit(1), None)
    case ExchangeAuthCode(code) =>
      var reply := exchangeCode(code);
      var (s, st) := CompleteAuthorization(Fresh, s0, reply, writeOk);
      Launched(s, st, if reply.Granted? then StartScheduler else Exit(1), Some(code))
    case Default =>
      match LoadTokens(s0)
      case Some(p) => Launched(Holding(p), s0, StartScheduler, None)
      case None => Launched(Fresh, s0, SetupOAuth, None)
  }
}

=== FILE: js_values.dfy ===
/** JavaScript values as the token manager sees them: nullable strings and
    numbers, and the truthiness tests (`!x`, `x || 0`) the program branches on. */
module JsValues {

  /** A value that may be `null`/`undefined` (None) or present (Some). */
  datatype Option<+T> = None | Some(value: T)

  /** Outcome of an operation that can throw. */
  datatype Result<+T, +E> = Ok(value: T) | Err(error: E)

  /** A nullable string is truthy exactly when it is present and non-empty:
      JavaScript treats `null`, `undefined` and `""` alike as false. */
  predicate Truthy(s: Option<string>)
  {
    s.Some? && s.value != ""
  }

  /** `x || 0` on a nullable number: a missing number reads as 0. A present
      number is kept, since the only falsy number modelled here is 0 itself
      (NaN is not modelled). */
  function OrZero(x: Option<real>): (r: real)
    ensures r == if x.Some? then x.value else 0.0
  {
    if x.Some? && x.value != 0.0 then x.value else 0.0
  }

  /** `s.startsWith(p)`: `p` is no longer than `s` and agrees with it character by character. */
  function StartsWith(s: string, p: string): (b: bool)
    ensures b <==> |p| <= |s| && forall i :: 0 <= i < |p| ==> s[i] == p[i]
  {
    |p| <= |s| && s[..|p|] == p
  }
}

=== FILE: token_manager.dfy ===
/** The token lifecycle: the two module-level token slots of the process and
    `ensureValidToken`, written as a pure transition over the slots, the token
    store, and an oracle standing for the provider's refresh-token exchange. */
module TokenManager {
  import opened JsValues
  import opened TokenStore

  /** The in-memory slots `accessToken` and `refreshToken` (`string | null`). */
  datatype Session = Session(accessToken: Option<string>, refreshToken: Option<string>)

  /** Both slots start out `null` when the process starts. */
  const Fresh: Session := Session(None, None)

  /** Reply of a provider token exchange: a new pair, or a rejected promise. */
  datatype Exchange = Granted(pair: TokenPair) | Rejected

  /** Why `ensureValidToken` throws. */
  datatype Failure =
    | NoTokens          // "No valid tokens available. Please re-authenticate."
    | ExchangeFailed    // the refresh exchange rejected; its error propagates

  /** Everything one call of `ensureValidToken` leaves behind: the slots, the
      store, the returned token or the thrown error, whether the store was
      read, and the refresh token sent to the exchange, if it was called. */
  datatype Outcome = Outcome(
    session: Session,
    store: Store,
    result: Result<string, Failure>,
    loaded: bool,
    exchangedWith: Option<string>)

  function Holding(p: TokenPair): Session
  {
    Session(Some(p.accessToken), Some(p.refreshToken))
  }

  /** Both slots are truthy: the state in which no store read and no exchange happens. */
  predicate Cached(s: Session)
  {
    Truthy(s.accessToken) && Truthy(s.refreshToken)
  }

  /** `ensureValidToken`. The exchange is consulted with the held refresh
      token; `saveOk` says whether persisting the new pair succeeds. */
  function EnsureValidToken(s: Session, store: Store, exchange: string -> Exchange, saveOk: bool): (o: Outcome)
    // A cache hit returns the cached access token and touches nothing.
    ensures Cached(s) ==> o == Outcome(s, store, Ok(s.accessToken.value), false, None)
    // The store is read exactly when a slot is falsy.
    ensures o.loaded <==> !Cached(s)
    // It throws "no tokens" exactly when neither slot is truthy and the store
    // yields no pair (a stored refresh token without an access token counts as
    // none), and then changes nothing and calls no exchange.
    ensures o.result == Err(NoTokens) <==>
              !Truthy(s.accessToken) && !Truthy(s.refreshToken) && LoadTokens(store).None?
    ensures o.result == Err(NoTokens) ==> o.session == s && o.store == store && o.exchangedWith.None?
    // The exchange is called exactly when the access slot is falsy, the store
    // yields no pair, and a refresh token is held; it is sent that token.
    ensures o.exchangedWith.Some? <==>
              !Truthy(s.accessToken) && Truthy(s.refreshToken) && LoadTokens(store).None?
    ensures o.exchangedWith.Some? ==> o.exchangedWith == s.refreshToken
    // A granted exchange replaces both slots, persists the same pair, and
    // returns the new access token.
    ensures o.exchangedWith.Some? && exchange(o.exchangedWith.value).Granted? ==>
              var p := exchange(o.exchangedWith.value).pair;
              o.session == Holding(p) && o.store == SaveTokens(store, p, saveOk)
              && o.result == Ok(p.accessToken)
    // A rejected exchange changes neither the slots nor the store.
    ensures o.exchangedWith.Some? && exchange(o.exchangedWith.value).Rejected? ==>
              o.session == s && o.store == store && o.result == Err(ExchangeFailed)
    // Without an exchange the store is never written.
    ensures o.exchangedWith.None? ==> o.store == store
    // A returned token is always the one left in the access slot.
    ensures o.result.Ok? ==> o.session.accessToken == Some(o.result.value)
    // A reload fills both slots from the stored pair and returns its access token.
    ensures !Cached(s) && LoadTokens(store).Some? ==>
              var q := LoadTokens(store).value;
              o == Outcome(Holding(q), store, Ok(q.accessToken), true, None)
    // A held access token is returned, with nothing changed, whenever the
    // store yields no pair, even if the refresh slot is empty.
    ensures Truthy(s.accessToken) && LoadTokens(store).None? ==>
              o.session == s && o.store == store && o.result == Ok(s.accessToken.value)
              && o.exchangedWith.None?
  {
    var needLoad := !Truthy(s.accessToken) || !Truthy(s.refreshToken);
    var saved := if needLoad then LoadTokens(store) else None;
    var s1 := if saved.Some? then Holding(saved.value) else s;
    if Truthy(s1.accessToken) then
      Outcome(s1, store, Ok(s1.accessToken.value), needLoad, None)
    else if !Truthy(s1.refreshToken) then
      Outcome(s1, store, Err(NoTokens), needLoad, None)
    else
      var rt := s1.refreshToken.value;
      match exchange(rt)
      case Rejected => Outcome(s1, store, Err(ExchangeFailed), needLoad, Some(rt))
      case Granted(p) =>
        Outcome(Holding(p), SaveTokens(store, p, saveOk), Ok(p.accessToken), needLoad, Some(rt))
  }

  /** The `.then` of the authorization-code exchange: a granted pair fills
      both slots and is persisted; a rejection leaves everything as it was
      (the process then exits with status 1). */
  function CompleteAuthorization(s: Session, store: Store, reply: Exchange, saveOk: bool): (r: (Session, Store))
    ensures reply.Granted? ==> r.0 == Holding(reply.pair)
    ensures reply.Granted? && saveOk && Usable(reply.pair) ==> LoadTokens(r.1) == Some(reply.pair)
    ensures reply.Granted? && saveOk ==> r.1 == SaveTokens(store, reply.pair, true)
    ensures reply.Granted? && !saveOk ==> r.1 == store
    ensures reply.Rejected? ==> r == (s, store)
  {
    match reply
    case Granted(p) => (Holding(p), SaveTokens(store, p, saveOk))
    case Rejected => (s, store)
  }

  /** Refresh rotation: with the access slot empty, refresh token `r1` held and
      nothing usable stored, a granted exchange `(a2, r2)` returns `a2`, leaves
      `(a2, r2)` in the store, and a second call returns `a2` again without
      reading the store or contacting the provider. */
  lemma RefreshRotation(r1: string, store: Store, exchange: string -> Exchange, a2: string, r2: string,
                        exchange2: string -> Exchange, saveOk2: bool)
    requires r1 != "" && a2 != "" && r2 != ""
    requires LoadTokens(store).None?
    requires exchange(r1) == Granted(TokenPair(a2, r2))
    ensures var o := EnsureValidToken(Session(None, Some(r1)), store, exchange, true);
            && o.result == Ok(a2)
            && o.exchangedWith == Some(r1)
            && LoadTokens(o.store) == Some(TokenPair(a2, r2))
            && EnsureValidToken(o.session, o.store, exchange2, saveOk2)
               == Outcome(o.session, o.store, Ok(a2), false, None)
  {
  }

  /** Once a refresh token is held, the session never falls back to "no
      tokens", provided the provider never hands out an empty refresh token. */
  lemma RefreshTokenNeverLost(s: Session, store: Store, exchange: string -> Exchange, saveOk: bool)
    requires Truthy(s.refreshToken)
    requires forall t :: exchange(t).Granted? ==> exchange(t).pair.refreshToken != ""
    ensures var o := EnsureValidToken(s, store, exchange, saveOk);
            o.result != Err(NoTokens) && Truthy(o.session.refreshToken)
  {
  }

  /** A process with empty slots whose store yields no pair (no file, an
      unreadable one, `{}`, or a record missing either token) fails with
      "no tokens" and makes no network call. */
  lemma Unauthenticated(store: Store, exchange: string -> Exchange, saveOk: bool)
    requires LoadTokens(store).None?
    ensures EnsureValidToken(Fresh, store, exchange, saveOk)
            == Outcome(Fresh, store, Err(NoTokens), true, None)
  {
  }

  /** From freshly started slots the refresh exchange is never called: either a
      stored pair is loaded and its access token returned, or "no tokens" is
      thrown. The refresh branch is reached only when the slots hold a refresh
      token and an empty access token, which only a grant with an empty access
      token leaves behind. */
  lemma FreshNeverRefreshes(store: Store, exchange: string -> Exchange, saveOk: bool)
    ensures EnsureValidToken(Fresh, store, exchange, saveOk).exchangedWith.None?
  {
  }
}

=== FILE: token_store.dfy ===
/** The one-record token file `./smartcar_tokens.json`, as an abstract value.
    The file is either missing, present but unreadable as a JSON object, or
    present holding a record whose two token fields may each be missing.
    A failed write is swallowed by the program, so every writing operation
    takes a `writeOk` oracle and leaves the store as it was when it is false. */
module TokenStore {
  import opened JsValues

  /** The stored JSON object. The `updated_at` stamp is a clock reading and
      is not modelled. */
  datatype TokenRecord = TokenRecord(accessToken: Option<string>, refreshToken: Option<string>)

  /** The `{}` sentinel written by initialisation and by clearing. */
  const EmptyRecord: TokenRecord := TokenRecord(None, None)

  datatype Store =
    | Absent                        // no file
    | Corrupt                       // a file that does not parse to an object
    | Present(record: TokenRecord)

  datatype TokenPair = TokenPair(accessToken: string, refreshToken: string)

  /** A pair both of whose tokens are non-empty: the only kind `LoadTokens` yields. */
  predicate Usable(p: TokenPair)
  {
    p.accessToken != "" && p.refreshToken != ""
  }

  predicate Exists(s: Store)
  {
    !s.Absent?
  }

  /** `initTokenStorage`: write `{}` when there is no file. */
  function InitTokenStorage(s: Store, writeOk: bool): (s': Store)
    ensures Exists(s) ==> s' == s
    ensures writeOk ==> Exists(s')
    ensures !Exists(s) && writeOk ==> s' == Present(EmptyRecord)
    ensures !writeOk ==> s' == s
    ensures LoadTokens(s') == LoadTokens(s)
  {
    if !Exists(s) && writeOk then Present(EmptyRecord) else s
  }

  /** `saveTokens(a, r)`: replace the whole file by a record holding `a` and `r`. */
  function SaveTokens(s: Store, p: TokenPair, writeOk: bool): (s': Store)
    ensures writeOk ==> s'.Present? && s'.record.accessToken == Some(p.accessToken)
                        && s'.record.refreshToken == Some(p.refreshToken)
    ensures !writeOk ==> s' == s
  {
    if writeOk then Present(TokenRecord(Some(p.accessToken), Some(p.refreshToken))) else s
  }

  /** `loadTokens`: a pair only when the file exists, parses, and both fields are truthy. */
  function LoadTokens(s: Store): (r: Option<TokenPair>)
    ensures r.Some? <==> s.Present? && Truthy(s.record.accessToken) && Truthy(s.record.refreshToken)
    ensures r.Some? ==> Usable(r.value)
                        && s.record.accessToken == Some(r.value.accessToken)
                        && s.record.refreshToken == Some(r.value.refreshToken)
  {
    match s
    case Absent => None
    case Corrupt => None
    case Present(rec) =>
      if Truthy(rec.accessToken) && Truthy(rec.refreshToken)
      then Some(TokenPair(rec.accessToken.value, rec.refreshToken.value))
      else None
  }

  /** `clearTokens`: overwrite an existing file with `{}`; a missing file stays missing. */
  function ClearTokens(s: Store, writeOk: bool): (s': Store)
    ensures !Exists(s) ==> s' == Absent
    ensures writeOk ==> LoadTokens(s') == None
    ensures writeOk && Exists(s) ==> s' == Present(EmptyRecord)
    ensures !writeOk ==> s' == s
  {
    if Exists(s) && writeOk then Present(EmptyRecord) else s
  }

  /** Initialisation is idempotent: once a run has written (or found) the
      file, a second run changes nothing, whatever the outcome of its write. */
  lemma InitIdempotent(s: Store, ok1: bool, ok2: bool)
    ensures ok1 ==> InitTokenStorage(InitTokenStorage(s, ok1), ok2) == InitTokenStorage(s, ok1)
  {
  }

  /** Saving a usable pair and loading it back yields exactly that pair, and
      saving a pair with an empty token yields nothing on load. */
  lemma SaveLoadRoundTrip(s: Store, p: TokenPair)
    ensures LoadTokens(SaveTokens(s, p, true)) == if Usable(p) then Some(p) else None
  {
  }

  /** Loading after clearing never yields a pair, in particular not a pair of
      empty strings; and a cleared store is left with the `{}` sentinel or missing. */
  lemma ClearThenLoad(s: Store)
    ensures LoadTokens(ClearTokens(s, true)) == None
    ensures ClearTokens(s, true) in {Absent, Present(EmptyRecord)}
  {
  }

  /** Clearing is idempotent. */
  lemma ClearIdempotent(s: Store, ok1: bool, ok2: bool)
    ensures ok1 ==> ClearTokens(ClearTokens(s, ok1), ok2) == ClearTokens(s, ok1)
  {
  }
}
